=== FILE: README.md ===
# SignifyAI gesture pipeline — a Dafny model

This project models the part of the SignifyAI Indian Sign Language app that
has algorithmic shape: the gesture capture-and-classification pipeline, plus
the list bookkeeping of its storage service.

- **Recognition service** (`recognition.dfy`, module `Recognition`). It
  flattens a landmark sample (pose, face, left hand, right hand) into exactly
  171 numbers, keeps the last 30 frames in a sliding window, gates
  prediction on a full window with no prediction in flight, and returns a
  placeholder prediction. The service object is a record that each
  operation maps to its successor.
- **Capture loop** (`camera.dfy`, module `Camera`). Start, stop, the record
  button, and the body of the 100 ms timer callback, each one atomic step.
  The decision gate emits a result iff there is a prediction, its confidence
  is at least the threshold, and the catalog has an entry at its index.
- **Image classifiers** (`tflite.dfy`, `simple.dfy`, `lightweight.dfy`,
  sharing `ranking.dfy`). These are the post-processing of the model-backed
  service (arg-max, label fallback, descending sort, top five, re-entrancy
  flag) and the two mock generators. A call is split into its synchronous
  head and its continuation after the first `await`, so an overlapping call
  can be stated.
- **Configuration** (`gestures.dfy`). The 11-entry catalog, the region
  sizes, the window length, the default threshold, and the ids
  `gesture_<i>` that the app context assigns in catalog order.
- **Storage** (`storage.dfy`). Settings with defaults, a newest-first
  history capped at 100, per-gesture practice progress, and a reusable
  session id. AsyncStorage is one slot per key.
- `base.dfy` and `types.dfy` hold the shared vocabulary. This includes the
  decimal rendering JavaScript uses in ids such as `gesture_3`,
  `Unknown_12` and `result_<ms>`, and the records of `types/gesture.ts`.

Random draws (`Math.random()`) are values of the subset type
`Unit = [0, 1)`. Every clock reading is a separate integer input: one tick
reads the clock three times (the frame stamp, the `result_<ms>` id and the
result's timestamp), and loading the catalog reads it once per entry.
Model outputs, and exceptions thrown by image preprocessing, are inputs.
Numbers are reals, not IEEE doubles.

Behaviours of the code worth knowing when reading the model:

- **Within a tick, only an emitted result clears the buffer**
  (components/TranslatorCamera.tsx:86). A full window that the gate rejects
  (confidence below the threshold, or no catalog entry) stays in place and
  is classified again on the next tick, after one more frame has rolled in
  (`Camera.RejectionKeepsWindowRolling`).
- **The placeholder confidence lies in [0.75, 0.95)**: it is
  `0.75 + 0.2 * Math.random()` (services/gestureRecognition.ts:84).
- **Nothing discards a late result.** A tick suspended at its `await` when
  recording stops still delivers its result. The model treats each tick as
  atomic and makes no claim about that interleaving.

## Model

| member | source | states |
|---|---|---|
| Base.NatToStringRoundTrip | contexts/AppContext.tsx:47-51 | reading back the decimal rendering used in the `gesture_<i>` ids gives the index, so distinct indices give distinct ids |
| Gestures.CatalogShape | constants/gestures.ts:5-20 | the catalog has 11 entries: "1".."9" as numbers, then "A" and "B" as letters |
| Gestures.LoadGestures | contexts/AppContext.tsx:47-51 | the context's gesture list follows the catalog in order, entry i has id `gesture_<i>` and its own creation time, and all ids are distinct |
| Recognition.RegionFeatures | services/gestureRecognition.ts:11-33 | each point contributes exactly three numbers at positions 3i..3i+2; a missing, NaN or absent component becomes 0 |
| Recognition.Flatten | services/gestureRecognition.ts:11-33 | three numbers per point; the pose block comes first, then the face, left-hand and right-hand blocks, each starting where the previous one ends and holding its points in order |
| Recognition.PadWithZeros | services/gestureRecognition.ts:35-37 | the padding loop keeps its input as a prefix, pads only with zeros, and reaches the target length |
| Recognition.ExtractFeatures | services/gestureRecognition.ts:8-40 | the vector always has 171 numbers; a short concatenation is a prefix followed by zeros, and a long one is cut to its first 171 |
| Recognition.PoseLayout | services/gestureRecognition.ts:11-15 | position 3i+k of the vector is component k of pose point i, wherever it fits |
| Recognition.FaceLayout | services/gestureRecognition.ts:11-21 | position 3(p+i)+k of the vector, p the number of pose points, is component k of face point i, wherever it fits |
| Recognition.EmptySampleIsZero | services/gestureRecognition.ts:35-39 | a sample with every region empty yields 171 zeros |
| Recognition.HandsDroppedWhenPoseAndFaceFill | services/gestureRecognition.ts:35-39 | 171 numbers are exactly a full 33-point pose and 24 face points, so with at least 24 face points both hands are dropped: the vector equals the one for the same sample without hands |
| Recognition.AddFrame | services/gestureRecognition.ts:42-55 | the new frame, carrying its extracted vector, is last; a window of at most 30 grows by one up to 30; the processing flag is untouched |
| Recognition.AddFramesKeepsLatest | services/gestureRecognition.ts:50-54 | after any run of additions the buffer holds the most recent min(n, 30) frames in arrival order |
| Recognition.ClearBuffer | services/gestureRecognition.ts:89-91 | the buffer is emptied and the processing flag is kept |
| Recognition.ClearBufferIdempotent | services/gestureRecognition.ts:57-91 | clearing twice equals clearing once, and a cleared service is not ready to predict |
| Recognition.IsReadyForPrediction | services/gestureRecognition.ts:57-59 | the service is ready exactly when the displayed status is at 100% and no prediction is in flight |
| Recognition.MockInference | services/gestureRecognition.ts:82-87 | the placeholder index lies in [0, 11) and its confidence in [0.75, 0.95) |
| Recognition.MockInferenceCoversRange | services/gestureRecognition.ts:82-87 | every catalog index and every confidence in [0.75, 0.95) is produced by some pair of draws |
| Recognition.PredictGesture | services/gestureRecognition.ts:61-80 | a prediction is returned iff the window is full and no prediction is in flight; the service state, buffer included, is left as it was |
| Recognition.GetBufferStatus | services/gestureRecognition.ts:93-99 | current is the buffer length and required is 30; the percentage is current/30·100, so it lies in [0, 100] for a window of at most 30, is 100 exactly when full and 0 exactly when empty |
| Recognition.StatusMonotone | services/gestureRecognition.ts:93-99 | adding a frame never lowers the percentage, and clearing resets the status to {0, 30, 0} |
| Ranking.Insert | services/gestureRecognitionTFLite.ts:209 | inserting into a descending list keeps it descending and adds exactly the new entry |
| Ranking.SortByConfidence | services/gestureRecognitionTFLite.ts:209 | the sort returns a permutation of its input ordered by non-increasing confidence |
| Ranking.DroppedAreLower | services/gestureRecognitionTFLite.ts:209-220 | cutting a descending list to a prefix leaves out only entries no more confident than the prefix's last one |
| Ranking.RankTop | services/gestureRecognitionTFLite.ts:209-220 | the top list has min(5, n) entries, is descending, draws from the input, starts with a maximum-confidence entry, and every entry left out is no more confident than the last one kept |
| Ranking.SortedPermutationHead | services/gestureRecognitionSimple.ts:158-169 | in any non-increasing rearrangement of the entries, an entry strictly more confident than all others comes first |
| Ranking.UniqueMaximumFirst | services/gestureRecognitionSimple.ts:158-169 | an entry strictly more confident than all others is first after sorting and truncation to the top five |
| TFLiteService.ScanBest | services/gestureRecognitionTFLite.ts:192-200 | the arg-max loop yields the first index of the maximum when some score is positive, and (0, 0) when none is |
| TFLiteService.Labelled | services/gestureRecognitionTFLite.ts:203-206 | one entry per score in order, labelled from the table, or `Unknown_<i>` when the label is missing or empty |
| TFLiteService.Ranked | services/gestureRecognitionTFLite.ts:203-220 | the labelled scores sorted and cut to min(5, n): descending, drawn from the labelled scores, keeping the most confident, and starting at the arg-max score when it is positive |
| TFLiteService.PostProcess | services/gestureRecognitionTFLite.ts:191-221 | confidence is the maximum positive score at the first index holding it (else 0 at index 0); the gesture falls back to "Unknown"; the list holds min(5, n) of the labelled scores, descending, starting at that confidence, and no labelled score left out exceeds the last one kept |
| TFLiteService.BeginPredict | services/gestureRecognitionTFLite.ts:165-176 | with no model loaded, or a call already in flight, it returns null without touching the flag; otherwise it raises the flag |
| TFLiteService.FinishPredict | services/gestureRecognitionTFLite.ts:178-232 | the flag is lowered on every path; a result is returned iff inference produced scores, and it is the post-processing of those scores |
| TFLiteService.PredictGesture | services/gestureRecognitionTFLite.ts:165-233 | a completed call leaves the state as found; the result is non-null iff the model is loaded, no call is in flight and inference succeeded |
| TFLiteService.OverlappingCallRejected | services/gestureRecognitionTFLite.ts:171-176 | a call arriving while another is suspended returns null and changes nothing; the suspended call still lowers the flag |
| TFLiteService.IsReady | services/gestureRecognitionTFLite.ts:238-240 | ready and idle is exactly the condition under which a call passes both guards and starts inference |
| TFLiteService.Dispose | services/gestureRecognitionTFLite.ts:255-262 | after dispose the service is not ready and holds no model; without a model dispose changes nothing |
| TFLiteService.DisposedPredictsNothing | services/gestureRecognitionTFLite.ts:165-169 | after dispose every prediction is null |
| SimpleService.LabelsMatchCatalog | services/gestureRecognitionSimple.ts:15-27 | the label table maps keys 0..10 to the catalog names in catalog order |
| SimpleService.MockEntries | services/gestureRecognitionSimple.ts:158-161 | the chosen label gets the chosen confidence; every other label gets a value in [0, 0.3), below it |
| SimpleService.GetMockPrediction | services/gestureRecognitionSimple.ts:154-171 | index in [0, 11), confidence in [0.75, 0.95), five descending entries drawn from the mock entries, headed by the chosen label with that confidence, and no mock entry left out is more confident than the last one kept |
| SimpleService.BeginPredict | services/gestureRecognitionSimple.ts:119-129 | with no model or no TensorFlow it answers with a mock, not null; a call already in flight gets null; otherwise it raises the flag |
| SimpleService.FinishPredict | services/gestureRecognitionSimple.ts:131-148 | the flag is lowered on every path; a mock is returned iff preprocessing succeeded |
| SimpleService.PredictGesture | services/gestureRecognitionSimple.ts:119-149 | a completed call leaves the state as found; null exactly when loaded and either a call is in flight or preprocessing throws |
| SimpleService.OverlappingCallRejected | services/gestureRecognitionSimple.ts:125-129 | a call overlapping a suspended one returns null without touching the state |
| SimpleService.IsReady | services/gestureRecognitionSimple.ts:176-178 | a service that is not ready answers every call with the mock prediction |
| SimpleService.Dispose | services/gestureRecognitionSimple.ts:195-205 | after dispose the service is not ready and holds no model |
| SimpleService.DisposedFallsBackToMock | services/gestureRecognitionSimple.ts:120-123 | after dispose a prediction is the mock fallback, never null |
| LightweightService.Initialize | services/gestureRecognitionLightweight.ts:28-45 | initialization always ends initialized and reports success |
| LightweightService.IsReady | services/gestureRecognitionLightweight.ts:121-123 | the service is ready exactly when initializing it again would change nothing |
| LightweightService.BuildDistribution | services/gestureRecognitionLightweight.ts:86-105 | one entry per class in order, the chosen class at the best confidence, every other in [0, 1 - best], and the others sum to at most 1 - best |
| LightweightService.SimulateModelPrediction | services/gestureRecognitionLightweight.ts:77-116 | index in [0, numClasses), confidence in [0.85, 0.99); the distribution has one entry per class in order, the others in [0, 1 - confidence] summing to at most 1 - confidence; the returned min(5, numClasses) descending entries are drawn from it, keep its highest, and are headed by the chosen class; no label when there are no classes |
| LightweightService.PredictGesture | services/gestureRecognitionLightweight.ts:53-71 | null exactly when not initialized; otherwise the simulated prediction: confidence in [0.85, 0.99), the chosen class's label as gesture, min(5, n) descending entries drawn from the one-per-class distribution, keeping its highest, headed by the chosen class |
| Camera.Mount | components/TranslatorCamera.tsx:15-21 | the component starts idle with the status {0, 30, 0} of an empty buffer and no results |
| Camera.Decide | components/TranslatorCamera.tsx:71-84 | a result iff the prediction is non-null, its confidence is at least the threshold (equality accepted) and the catalog has that index; it carries that entry, the confidence, the session id, the id `result_<ms>` from the id's clock reading and the timestamp from its own reading |
| Camera.Tick | components/TranslatorCamera.tsx:58-90 | one frame is added first; exactly one result is emitted iff the window becomes ready and the gate accepts, and then the buffer is empty; otherwise the buffer is exactly the one after the addition; a cancelled timer does nothing |
| Camera.StartRecording | components/TranslatorCamera.tsx:54-58 | recording starts with an empty buffer and an armed timer |
| Camera.StopRecording | components/TranslatorCamera.tsx:93-101 | the timer is cancelled, the buffer emptied, and the status reset to {0, 30, 0}, the status of an empty buffer |
| Camera.Press | components/TranslatorCamera.tsx:122-125 | the button toggles recording, the timer follows, and the buffer is empty afterwards |
| Camera.StoppedIsInert | components/TranslatorCamera.tsx:93-98 | once stopped, no run of ticks changes anything |
| Camera.FillingEmitsNothing | components/TranslatorCamera.tsx:66-71 | while the window is filling each tick adds one frame and nothing is emitted |
| Camera.RejectionKeepsWindowRolling | components/TranslatorCamera.tsx:74-88 | after a rejected full window the buffer stays full, so the next tick classifies again |
| Camera.HighThresholdNeverEmits | components/TranslatorCamera.tsx:74 | with a threshold of at least 0.95 nothing is ever emitted |
| Camera.FirstWindowEmitsOnce | components/TranslatorCamera.tsx:54-90 | thirty ticks after start, with a threshold of at most 0.75 and the full catalog, emit exactly one result and leave the buffer empty |
| Storage.GetSettings | services/storage.ts:12-28 | stored settings are returned as stored; otherwise speech on, rate 1.0, threshold 0.7, medium resolution |
| Storage.SaveSettings | services/storage.ts:30-36 | saved settings are what the next read returns, and other keys are untouched |
| Storage.GetHistory | services/storage.ts:38-56 | the stored list is returned as stored; a missing or unreadable slot reads as the empty list |
| Storage.AddToHistory | services/storage.ts:58-68 | the new result is first; the length is min(old + 1, 100); the older entries follow in order with only the oldest dropped |
| Storage.ClearHistory | services/storage.ts:70-76 | after clearing, the history reads as empty |
| Storage.HistoryKeepsNewest | services/storage.ts:58-68 | after any run of additions the history is the newest results first, then the older history, cut to 100 |
| Storage.GetProgress | services/storage.ts:78-92 | the stored list is returned as stored; a missing or unreadable slot reads as the empty list |
| Storage.FindProgress | services/storage.ts:97 | the lookup finds the first entry for the gesture, or reports that there is none |
| Storage.UpdateProgress | services/storage.ts:94-121 | the first matching entry counts one more practice, mastery min(100, m + 5) or max(0, m - 2), others untouched; an unknown gesture is appended with count 1 and mastery 5 or 0 |
| Storage.UpdateProgressKeepsInvariants | services/storage.ts:99-116 | mastery stays in [0, 100] and each gesture keeps at most one entry |
| Storage.GetSessionId | services/storage.ts:123-135 | a stored non-empty id is reused; otherwise `session_<now>_<suffix>` is created and stored |
| Storage.SessionIdStable | services/storage.ts:123-135 | a second request returns the same id and changes nothing |
| Storage.ResetSessionId | services/storage.ts:137-143 | the stored id is removed |
| Storage.FirstLaunch | services/storage.ts:12-28 | with nothing stored, the settings read as the defaults, history and progress read as empty, and a new session id is created |

## Left out

- Tensor and asset work is not modelled, because it calls into TensorFlow.js, Expo and the file system. In the model-backed service this covers `initialize`, `loadModel`, `warmUp`, `preprocessImage` and `base64ToTensor`. In the placeholder service it covers `initialize`, `loadModel` and `preprocessImage`. Their outcomes enter as inputs: the scores or the exception (`Inference`), and whether preprocessing succeeded.
- `getModelInfo` and `getGestures` are not modelled. They only list the label table's values.
- The label table of `labels.json` is not part of this model. It is taken to be dense (keys "0".."n-1", as the training script writes it) and becomes a sequence indexed by class.
- Floating point is not modelled: numbers are reals. The bounds [0.75, 0.95) and [0.85, 0.99) hold over the reals. Rounding at the top end of a draw is not considered. NaN scores from a model are not considered.
- Draw order is simplified. In the mock generators each non-chosen label's draw is indexed by label position rather than by the order in which `Math.random()` is called.
- Timing and asynchrony are not modelled. This covers the 100 ms cadence, a tick suspended at its `await` while stop runs, and the unmount cleanup that clears the timer (components/TranslatorCamera.tsx:23-29). Each tick is one atomic step.
- The mock landmark generation, rendering, permissions and camera facing in the camera component are left out. The sample of each tick is an input.
- Failure paths that the inputs cannot trigger are left out. The recognition service's `catch` around a mock inference that cannot throw is not modelled. Neither is the Lightweight service's `catch` around a simulation that cannot throw.
- AsyncStorage failures are left out. This covers a throwing `setItem` and `removeItem`, and the `getSessionId` error path that returns an unstored `session_<now>`. JSON and `Date` conversions are also left out. Slots store structured values; unreadable data is the `Unparseable` slot.
- Speech, navigation, onboarding, settings screens and the training scripts are outside the pipeline.
- Ranking.SortByConfidence: stability among equal confidences is not proved. The model sorts stably by insertion, as `Array.prototype.sort` does.
- SimpleService.GetMockPrediction: the bound [0, 0.3) on the non-chosen confidences is stated on the unsorted entries (`SimpleService.MockEntries`); for the returned top five it follows only through their being drawn from those entries.
- LightweightService.SimulateModelPrediction: the bound on the sum of the non-best confidences is stated on the full distribution it returns alongside the result, not restated for the top five.

=== FILE: base.dfy ===
/** Small shared vocabulary: optional values, random draws, and the decimal
    rendering JavaScript uses when it turns a non-negative integer into a
    string (`i.toString()`, template literals such as `gesture_${i}`). */
module Base {

  /** `null`/`undefined` versus a present value. */
  datatype Option<+T> = None | Some(value: T)

  /** One draw of `Math.random()`: a real number in [0, 1). */
  type Unit = u: real | 0.0 <= u < 1.0 witness 0.0

  function Min(a: int, b: int): int { if a <= b then a else b }

  function Max(a: int, b: int): int { if a >= b then a else b }

  /** `Math.floor(u * n)` for a draw `u` is an index below `n` (0 when n is 0). */
  lemma ScaledDrawIndex(u: Unit, n: nat)
    ensures 0 <= (u * n as real).Floor
    ensures n > 0 ==> (u * n as real).Floor < n
    ensures n == 0 ==> (u * n as real).Floor == 0
  {
    assert 0.0 <= u * n as real;
    if n > 0 {
      assert u * n as real < n as real by {
        assert n as real - u * n as real == (1.0 - u) * n as real;
      }
    }
  }

  /** A draw scales a non-negative amount down, never up. */
  lemma ScaledDrawBelow(a: real, u: real)
    requires 0.0 <= a && 0.0 <= u < 1.0
    ensures 0.0 <= a * u <= a
  {
    assert a - a * u == a * (1.0 - u);
  }

  predicate IsDigit(c: char) { '0' <= c <= '9' }

  function DigitChar(d: nat): (c: char)
    requires d < 10
    ensures IsDigit(c)
    ensures c as int - '0' as int == d
  {
    ('0' as int + d) as char
  }

  /** Decimal digits of `n`, most significant first, without leading zeros. */
  function NatToString(n: nat): (s: string)
    ensures 1 <= |s|
    ensures forall i :: 0 <= i < |s| ==> IsDigit(s[i])
    decreases n
  {
    if n < 10 then [DigitChar(n)] else NatToString(n / 10) + [DigitChar(n % 10)]
  }

  /** Value of a string of decimal digits (the inverse of `NatToString`). */
  function DigitsValue(s: string): nat
    requires forall i :: 0 <= i < |s| ==> IsDigit(s[i])
  {
    if s == [] then 0
    else
      assert IsDigit(s[|s| - 1]);
      10 * DigitsValue(s[..|s| - 1]) + (s[|s| - 1] as int - '0' as int)
  }

  /** Reading back the rendered digits gives the number. */
  lemma {:induction false} NatToStringRoundTrip(n: nat)
    ensures DigitsValue(NatToString(n)) == n
    decreases n
  {
    var s := NatToString(n);
    if n >= 10 {
      NatToStringRoundTrip(n / 10);
      assert s[..|s| - 1] == NatToString(n / 10);
    }
  }

  /** Distinct numbers render as distinct strings. */
  lemma NatToStringInjective(a: nat, b: nat)
    requires NatToString(a) == NatToString(b)
    ensures a == b
  {
    NatToStringRoundTrip(a);
    NatToStringRoundTrip(b);
  }

  /** Two strings sharing a prefix are equal exactly when their tails are. */
  lemma PrefixCancel(p: string, a: string, b: string)
    requires p + a == p + b
    ensures a == b
  {
    assert a == (p + a)[|p|..];
    assert b == (p + b)[|p|..];
  }
}

=== FILE: camera.dfy ===
/** The capture loop of `components/TranslatorCamera.tsx`: start, stop and
    the body of the 100 ms interval callback, each as one atomic step on a
    record of the component's state. Rendering, permissions and the random
    mock landmarks are not modelled; the sample, the clock and the
    classifier's draws of each tick are inputs. */
module Camera {
  import opened Base
  import opened Types
  import opened Gestures
  import opened Recognition

  /** What the component reads from the application context. */
  datatype Context = Context(settings: AppSettings, gestures: seq<Gesture>, sessionId: string)

  /** `isRecording`, whether `intervalRef` holds a live timer, the shared
      recognition service, the displayed `bufferStatus`, and every result
      handed to `onGestureDetected`, in order. */
  datatype CameraState = CameraState(
    isRecording: bool,
    timerActive: bool,
    service: RecognitionService,
    bufferStatus: BufferStatus,
    detected: seq<TranslationResult>)

  const INITIAL_STATUS: BufferStatus := BufferStatus(0, 30, 0.0)

  /** The component as first rendered, over the service it shares. */
  function Mount(service: RecognitionService): (c: CameraState)
    ensures !c.isRecording && !c.timerActive && c.detected == []
    ensures c.bufferStatus == GetBufferStatus(FreshService)
  {
    CameraState(false, false, service, INITIAL_STATUS, [])
  }

  /** The clock readings of one tick, each taken separately: `Date.now()`
      when the service stamps the frame, `Date.now()` for the result id, and
      `new Date()` for the result's timestamp. */
  datatype Clock = Clock(frameAt: nat, idAt: nat, stampAt: int)

  /** The inputs of one tick: the landmark sample, the clock readings, and
      the two draws of the recognition service's mock inference. */
  datatype TickInput = TickInput(landmarks: LandmarkData, clock: Clock, uIndex: Unit, uConfidence: Unit)

  function ResultId(now: nat): string
  {
    "result_" + NatToString(now)
  }

  /** The decision gate: a prediction, a confidence at or above the
      threshold, and a catalog entry at the predicted index. */
  function Decide(p: Option<Prediction>, ctx: Context, clock: Clock): (r: Option<TranslationResult>)
    ensures r.Some? <==>
      p.Some? && p.value.confidence >= ctx.settings.confidenceThreshold
      && 0 <= p.value.gestureIndex < |ctx.gestures|
    ensures r.Some? ==>
      r.value.gesture == ctx.gestures[p.value.gestureIndex]
      && r.value.confidenceScore == p.value.confidence
      && r.value.sessionId == ctx.sessionId
      && r.value.id == ResultId(clock.idAt) && r.value.timestamp == clock.stampAt
  {
    match p
    case None => None
    case Some(pred) =>
      if pred.confidence >= ctx.settings.confidenceThreshold && 0 <= pred.gestureIndex < |ctx.gestures| then
        Some(TranslationResult(ResultId(clock.idAt), ctx.gestures[pred.gestureIndex], pred.confidence, clock.stampAt, ctx.sessionId))
      else None
  }

  /** The interval callback's body; a cancelled timer runs nothing. */
  function Tick(c: CameraState, ctx: Context, x: TickInput): (r: CameraState)
    ensures !c.timerActive ==> r == c
    ensures r.isRecording == c.isRecording && r.timerActive == c.timerActive
    ensures c.timerActive ==> r.bufferStatus == GetBufferStatus(AddFrame(c.service, Sample(x.landmarks, x.clock.frameAt)))
    ensures r.detected == c.detected
      || (|r.detected| == |c.detected| + 1 && r.detected[..|c.detected|] == c.detected)
    ensures r.service.isProcessing == c.service.isProcessing
    ensures c.timerActive ==>
      var added := AddFrame(c.service, Sample(x.landmarks, x.clock.frameAt));
      var gate := Decide(PredictGesture(added, x.uIndex, x.uConfidence).1, ctx, x.clock);
      (|r.detected| == |c.detected| + 1 <==> IsReadyForPrediction(added) && gate.Some?)
      && (|r.detected| == |c.detected| + 1 ==>
            r.detected[|c.detected|] == gate.value && r.service.frameBuffer == [])
      && (r.detected == c.detected ==> r.service == added)
  {
    if !c.timerActive then c
    else
      var added := AddFrame(c.service, Sample(x.landmarks, x.clock.frameAt));
      var status := GetBufferStatus(added);
      if !IsReadyForPrediction(added) then c.(service := added, bufferStatus := status)
      else
        var (after, prediction) := PredictGesture(added, x.uIndex, x.uConfidence);
        match Decide(prediction, ctx, x.clock)
        case None => c.(service := after, bufferStatus := status)
        case Some(result) =>
          c.(service := ClearBuffer(after), bufferStatus := status, detected := c.detected + [result])
  }

  /** `startRecording`: clears the buffer, then arms the timer. */
  function StartRecording(c: CameraState): (r: CameraState)
    ensures r.isRecording && r.timerActive
    ensures r.service.frameBuffer == [] && r.service.isProcessing == c.service.isProcessing
    ensures r.detected == c.detected && r.bufferStatus == c.bufferStatus
  {
    c.(isRecording := true, service := ClearBuffer(c.service), timerActive := true)
  }

  /** `stopRecording`: cancels the timer, clears the buffer, resets the
      displayed status to the one the component starts with. */
  function StopRecording(c: CameraState): (r: CameraState)
    ensures !r.isRecording && !r.timerActive
    ensures r.service.frameBuffer == [] && r.detected == c.detected
    ensures r.bufferStatus == INITIAL_STATUS == GetBufferStatus(r.service)
  {
    c.(isRecording := false, timerActive := false, service := ClearBuffer(c.service),
       bufferStatus := INITIAL_STATUS)
  }

  /** The record button: stop while recording, start otherwise. */
  function Press(c: CameraState): (r: CameraState)
    ensures r.isRecording == !c.isRecording
    ensures r.timerActive == r.isRecording
    ensures r.service.frameBuffer == []
  {
    if c.isRecording then StopRecording(c) else StartRecording(c)
  }

  /** A run of ticks, oldest first. */
  function Run(c: CameraState, ctx: Context, xs: seq<TickInput>): CameraState
    decreases |xs|
  {
    if xs == [] then c else Tick(Run(c, ctx, xs[..|xs| - 1]), ctx, xs[|xs| - 1])
  }

  /** After stop no tick has any effect. */
  lemma {:induction false} StoppedIsInert(c: CameraState, ctx: Context, xs: seq<TickInput>)
    requires !c.timerActive
    ensures Run(c, ctx, xs) == c
    decreases |xs|
  {
    if xs != [] {
      StoppedIsInert(c, ctx, xs[..|xs| - 1]);
    }
  }

  /** While the window fills, every tick adds one frame and nothing is
      classified or emitted. */
  lemma {:induction false} FillingEmitsNothing(c: CameraState, ctx: Context, xs: seq<TickInput>)
    requires c.timerActive && |c.service.frameBuffer| + |xs| < SEQUENCE_LENGTH
    ensures Run(c, ctx, xs).detected == c.detected
    ensures |Run(c, ctx, xs).service.frameBuffer| == |c.service.frameBuffer| + |xs|
    ensures Run(c, ctx, xs).timerActive
    ensures Run(c, ctx, xs).service.isProcessing == c.service.isProcessing
    decreases |xs|
  {
    if xs != [] {
      FillingEmitsNothing(c, ctx, xs[..|xs| - 1]);
    }
  }

  /** A rejected full window is kept, so the very next tick classifies again
      on the window shifted by one frame. */
  lemma RejectionKeepsWindowRolling(c: CameraState, ctx: Context, x: TickInput, y: TickInput)
    requires c.timerActive && !c.service.isProcessing
    requires |c.service.frameBuffer| == SEQUENCE_LENGTH
    requires Tick(c, ctx, x).detected == c.detected
    ensures |Tick(c, ctx, x).service.frameBuffer| == SEQUENCE_LENGTH
    ensures IsReadyForPrediction(AddFrame(Tick(c, ctx, x).service, Sample(y.landmarks, y.clock.frameAt)))
  {
  }

  /** With a threshold above every confidence the mock inference can
      produce, the camera never emits, however long it runs. */
  lemma {:induction false} HighThresholdNeverEmits(c: CameraState, ctx: Context, xs: seq<TickInput>)
    requires ctx.settings.confidenceThreshold >= 0.95
    ensures Run(c, ctx, xs).detected == c.detected
    decreases |xs|
  {
    if xs != [] {
      HighThresholdNeverEmits(c, ctx, xs[..|xs| - 1]);
    }
  }

  /** Thirty ticks after start, with a threshold the mock always meets and
      the full catalog, emit exactly one result and leave the buffer empty. */
  lemma FirstWindowEmitsOnce(c: CameraState, ctx: Context, xs: seq<TickInput>)
    requires !c.service.isProcessing
    requires ctx.settings.confidenceThreshold <= 0.75 && |ctx.gestures| >= |ISL_GESTURES|
    requires |xs| == SEQUENCE_LENGTH
    ensures |Run(StartRecording(c), ctx, xs).detected| == |c.detected| + 1
    ensures Run(StartRecording(c), ctx, xs).service.frameBuffer == []
  {
    var s := StartRecording(c);
    var init := xs[..|xs| - 1];
    FillingEmitsNothing(s, ctx, init);
    var before := Run(s, ctx, init);
    var x := xs[|xs| - 1];
    assert Run(s, ctx, xs) == Tick(before, ctx, x);
    var added := AddFrame(before.service, Sample(x.landmarks, x.clock.frameAt));
    assert IsReadyForPrediction(added);
    var p := PredictGesture(added, x.uIndex, x.uConfidence).1;
    assert Decide(p, ctx, x.clock).Some?;
  }
}

=== FILE: gestures.dfy ===
/** Static configuration from `constants/gestures.ts`, and the catalog the
    application context derives from it (ids `gesture_<i>` in order). */
module Gestures {
  import opened Base
  import opened Types

  /** A catalog entry before the context gives it an id and a date. */
  datatype CatalogEntry = CatalogEntry(name: string, description: string, category: Category)

  const FACE: nat := 468
  const POSE: nat := 33
  const LEFT_HAND: nat := 21
  const RIGHT_HAND: nat := 21
  const TOTAL_FEATURES: nat := 171

  const SEQUENCE_LENGTH: nat := 30
  const DEFAULT_CONFIDENCE_THRESHOLD: real := 0.7

  const ISL_GESTURES: seq<CatalogEntry> := [
    CatalogEntry("1", "ISL sign for number one", Number),
    CatalogEntry("2", "ISL sign for number two", Number),
    CatalogEntry("3", "ISL sign for number three", Number),
    CatalogEntry("4", "ISL sign for number four", Number),
    CatalogEntry("5", "ISL sign for number five", Number),
    CatalogEntry("6", "ISL sign for number six", Number),
    CatalogEntry("7", "ISL sign for number seven", Number),
    CatalogEntry("8", "ISL sign for number eight", Number),
    CatalogEntry("9", "ISL sign for number nine", Number),
    CatalogEntry("A", "ISL sign for letter A", Letter),
    CatalogEntry("B", "ISL sign for letter B", Letter)
  ]

  /** Eleven entries: the digits 1..9 as numbers, then A and B as letters. */
  lemma CatalogShape()
    ensures |ISL_GESTURES| == 11
    ensures forall i :: 0 <= i < 9 ==>
      ISL_GESTURES[i].category == Number && ISL_GESTURES[i].name == [DigitChar(i + 1)]
    ensures ISL_GESTURES[9].name == "A" && ISL_GESTURES[9].category == Letter
    ensures ISL_GESTURES[10].name == "B" && ISL_GESTURES[10].category == Letter
  {
  }

  function GestureId(i: nat): string
  {
    "gesture_" + NatToString(i)
  }

  /** The context's gesture list: the catalog in order, entry `i` with id
      `gesture_<i>`; `createdAt[i]` is the `new Date()` read for entry `i`. */
  function LoadGestures(createdAt: seq<int>): (gs: seq<Gesture>)
    requires |createdAt| == |ISL_GESTURES|
    ensures |gs| == |ISL_GESTURES|
    ensures forall i :: 0 <= i < |gs| ==>
      gs[i].id == GestureId(i) && gs[i].name == ISL_GESTURES[i].name && gs[i].description == ISL_GESTURES[i].description
      && gs[i].category == ISL_GESTURES[i].category && gs[i].createdAt == createdAt[i]
      && gs[i].videoUrl == None
    ensures forall i, j :: 0 <= i < j < |gs| ==> gs[i].id != gs[j].id
  {
    var gs := seq(|ISL_GESTURES|, i requires 0 <= i < |ISL_GESTURES| =>
      Gesture(GestureId(i), ISL_GESTURES[i].name, ISL_GESTURES[i].description,
              ISL_GESTURES[i].category, None, createdAt[i]));
    assert forall i, j :: 0 <= i < j < |gs| ==> gs[i].id != gs[j].id by {
      forall i, j | 0 <= i < j < |gs|
        ensures gs[i].id != gs[j].id
      {
        if gs[i].id == gs[j].id {
          PrefixCancel("gesture_", NatToString(i), NatToString(j));
          NatToStringInjective(i, j);
        }
      }
    }
    gs
  }
}

=== FILE: lightweight.dfy ===
/** The placeholder classifier of `services/gestureRecognitionLightweight.ts`:
    it draws a class and a high confidence, then spreads what is left of the
    probability mass over the other classes. Each `Math.random()` draw is an
    input; the label table comes from `labels.json`. */
module LightweightService {
  import opened Base
  import opened Ranking

  /** `isInitialized` and the label table (entry `i` under key `"i"`). */
  datatype LightweightState = LightweightState(isInitialized: bool, labels: seq<string>)

  /** `initialize`: the normal path and the `catch` path both mark the
      service initialized and report success. */
  function Initialize(s: LightweightState): (r: (LightweightState, bool))
    ensures r.0.isInitialized && r.1
    ensures r.0.labels == s.labels
  {
    (s.(isInitialized := true), true)
  }

  /** `isReady` */
  predicate IsReady(s: LightweightState)
    ensures IsReady(s) <==> Initialize(s).0 == s
  {
    s.isInitialized
  }

  /** Draws for one simulated prediction: the class, its confidence, and
      one draw per class for the classes that were not chosen. */
  datatype SimulationDraws = SimulationDraws(index: Unit, confidence: Unit, noise: seq<Unit>)

  /** Sum of the confidences of every entry except the one at `skip`. */
  function OthersSum(xs: seq<Scored>, skip: nat): real
  {
    if xs == [] then 0.0
    else OthersSum(xs[..|xs| - 1], skip) + (if |xs| - 1 == skip then 0.0 else xs[|xs| - 1].confidence)
  }

  /** The distribution loop of `simulateModelPrediction`: the chosen class
      gets `best`; every other class takes `0.3 * noise` of what remains of
      `1 - best`, which is then reduced by that amount. */
  method BuildDistribution(labels: seq<string>, chosen: nat, best: real, noise: seq<Unit>)
    returns (all: seq<Scored>)
    requires |noise| == |labels|
    requires 0.0 <= best <= 1.0
    ensures |all| == |labels|
    ensures forall i :: 0 <= i < |all| ==> all[i].name == labels[i]
    ensures chosen < |all| ==> all[chosen].confidence == best
    ensures forall i :: 0 <= i < |all| && i != chosen ==> 0.0 <= all[i].confidence <= 1.0 - best
    ensures OthersSum(all, chosen) <= 1.0 - best
  {
    all := [];
    var remaining := 1.0 - best;
    var i := 0;
    while i < |labels|
      invariant 0 <= i <= |labels| && |all| == i
      invariant forall j :: 0 <= j < i ==> all[j].name == labels[j]
      invariant chosen < i ==> all[chosen].confidence == best
      invariant 0.0 <= remaining <= 1.0 - best
      invariant forall j :: 0 <= j < i && j != chosen ==> 0.0 <= all[j].confidence <= 1.0 - best
      invariant OthersSum(all, chosen) + remaining == 1.0 - best
    {
      var next: Scored;
      if i == chosen {
        next := Scored(labels[i], best);
      } else {
        var share := noise[i] * 0.3;
        assert 0.0 <= share < 1.0;
        var conf := remaining * share;
        ScaledDrawBelow(remaining, share);
        next := Scored(labels[i], conf);
        remaining := remaining - conf;
      }
      assert (all + [next])[..|all|] == all;
      all := all + [next];
      i := i + 1;
    }
  }

  /** `simulateModelPrediction` */
  method SimulateModelPrediction(labels: seq<string>, d: SimulationDraws)
    returns (r: PredictionResult, all: seq<Scored>)
    requires |d.noise| == |labels|
    ensures 0 <= r.gestureIndex && (labels != [] ==> r.gestureIndex < |labels|)
    ensures 0.85 <= r.confidence < 0.99
    ensures labels != [] ==> r.gesture == Some(labels[r.gestureIndex])
    ensures labels == [] ==> r.gesture == None && r.allPredictions == []
    ensures |r.allPredictions| == Min(TOP_K, |labels|)
    ensures NonIncreasing(r.allPredictions)
    ensures labels != [] ==> r.allPredictions[0] == Scored(labels[r.gestureIndex], r.confidence)
    ensures |all| == |labels| && forall i :: 0 <= i < |all| ==> all[i].name == labels[i]
    ensures forall i :: 0 <= i < |all| && i != r.gestureIndex ==> 0.0 <= all[i].confidence <= 1.0 - r.confidence
    ensures OthersSum(all, r.gestureIndex) <= 1.0 - r.confidence
    ensures multiset(r.allPredictions) <= multiset(all) && KeepsHighest(all, r.allPredictions)
  {
    var numClasses := |labels|;
    var bestIndex := (d.index * numClasses as real).Floor;
    ScaledDrawIndex(d.index, numClasses);
    var bestConfidence := 0.85 + d.confidence * 0.14;
    all := BuildDistribution(labels, bestIndex, bestConfidence, d.noise);
    if numClasses > 0 {
      UniqueMaximumFirst(all, bestIndex);
    }
    var gesture := if bestIndex < numClasses then Some(labels[bestIndex]) else None;
    r := PredictionResult(bestIndex, gesture, bestConfidence, RankTop(all));
  }

  /** `predictGesture`: null exactly when the service is not initialized;
      otherwise the simulated prediction, returned together with the full
      distribution it was ranked from. */
  method PredictGesture(s: LightweightState, d: SimulationDraws)
    returns (r: Option<PredictionResult>, all: seq<Scored>)
    requires |d.noise| == |s.labels|
    ensures r.None? <==> !IsReady(s)
    ensures r.None? ==> all == []
    ensures r.Some? ==> 0.85 <= r.value.confidence < 0.99
    ensures r.Some? ==>
      |r.value.allPredictions| == Min(TOP_K, |s.labels|) && NonIncreasing(r.value.allPredictions)
      && multiset(r.value.allPredictions) <= multiset(all) && KeepsHighest(all, r.value.allPredictions)
    ensures r.Some? ==> |all| == |s.labels| && forall i :: 0 <= i < |all| ==> all[i].name == s.labels[i]
    ensures r.Some? && s.labels != [] ==>
      0 <= r.value.gestureIndex < |s.labels| && r.value.gesture == Some(s.labels[r.value.gestureIndex])
      && r.value.allPredictions != []
      && r.value.allPredictions[0] == Scored(s.labels[r.value.gestureIndex], r.value.confidence)
  {
    if !s.isInitialized {
      return None, [];
    }
    var p;
    p, all := SimulateModelPrediction(s.labels, d);
    r := Some(p);
  }
}

=== FILE: ranking.dfy ===
/** The result shape shared by the three image classifiers and their common
    post-processing: `allPredictions.sort((a, b) => b.confidence -
    a.confidence)` followed by `slice(0, 5)`. `Array.prototype.sort` is
    stable, so the model sorts by stable insertion, highest confidence
    first. */
module Ranking {
  import opened Base

  /** One `{ label, confidence }` entry (`label` is a Dafny keyword). */
  datatype Scored = Scored(name: string, confidence: real)

  /** `PredictionResult`; `gesture` is `None` where `labels[bestIndex]` is
      `undefined`. */
  datatype PredictionResult = PredictionResult(
    gestureIndex: int,
    gesture: Option<string>,
    confidence: real,
    allPredictions: seq<Scored>)

  const TOP_K: nat := 5

  /** How the synchronous head of an image classifier's `predictGesture`
      ends: with a value, or suspended at its first `await`. */
  datatype Entry = Returned(result: Option<PredictionResult>) | Awaiting

  predicate NonIncreasing(s: seq<Scored>)
  {
    forall i, j :: 0 <= i < j < |s| ==> s[i].confidence >= s[j].confidence
  }

  /** `top` keeps the most confident entries of `all`: every entry of `all`
      left out of `top` is no more confident than the last one kept. */
  predicate KeepsHighest(all: seq<Scored>, top: seq<Scored>)
  {
    forall x :: x in multiset(all) - multiset(top) ==> top != [] && x.confidence <= top[|top| - 1].confidence
  }

  /** Places `x` after every element of higher confidence and before the
      rest, so earlier equal elements stay in front of later ones. */
  function Insert(x: Scored, s: seq<Scored>): (r: seq<Scored>)
    requires NonIncreasing(s)
    ensures multiset(r) == multiset(s) + multiset{x}
    ensures NonIncreasing(r)
    ensures |r| == |s| + 1
    ensures r[0] == x || (s != [] && r[0] == s[0])
  {
    if s == [] || s[0].confidence <= x.confidence then
      ConsNonIncreasing(x, s);
      [x] + s
    else
      var rest := Insert(x, s[1..]);
      assert s == [s[0]] + s[1..];
      ConsNonIncreasing(s[0], rest);
      [s[0]] + rest
  }

  lemma ConsNonIncreasing(h: Scored, t: seq<Scored>)
    requires NonIncreasing(t)
    requires t != [] ==> t[0].confidence <= h.confidence
    ensures NonIncreasing([h] + t)
  {
    var r := [h] + t;
    forall i, j | 0 <= i < j < |r|
      ensures r[i].confidence >= r[j].confidence
    {
      if i == 0 && j > 1 {
        assert t[0].confidence >= t[j - 1].confidence;
      }
    }
  }

  /** Descending by confidence: a permutation of the input in order. */
  function SortByConfidence(xs: seq<Scored>): (r: seq<Scored>)
    ensures multiset(r) == multiset(xs)
    ensures NonIncreasing(r)
    ensures |r| == |xs|
  {
    if xs == [] then []
    else
      assert xs == [xs[0]] + xs[1..];
      Insert(xs[0], SortByConfidence(xs[1..]))
  }

  /** The head of a non-increasing list is at least every element. */
  lemma HeadIsMaximum(s: seq<Scored>, x: Scored)
    requires NonIncreasing(s) && x in s
    ensures s[0].confidence >= x.confidence
  {
    var i :| 0 <= i < |s| && s[i] == x;
  }

  /** Whatever a prefix of a non-increasing list leaves out is no more
      confident than the prefix's last element. */
  lemma DroppedAreLower(sorted: seq<Scored>, n: nat)
    requires NonIncreasing(sorted) && 0 < n <= |sorted|
    ensures forall x :: x in multiset(sorted) - multiset(sorted[..n]) ==> x.confidence <= sorted[n - 1].confidence
  {
    assert sorted == sorted[..n] + sorted[n..];
    assert multiset(sorted) - multiset(sorted[..n]) == multiset(sorted[n..]);
    forall x | x in multiset(sorted[n..])
      ensures x.confidence <= sorted[n - 1].confidence
    {
      var j :| n <= j < |sorted| && sorted[j] == x;
    }
  }

  /** `sort` then `slice(0, 5)`. */
  function RankTop(xs: seq<Scored>): (r: seq<Scored>)
    ensures |r| == Min(TOP_K, |xs|)
    ensures NonIncreasing(r)
    ensures multiset(r) <= multiset(xs)
    ensures forall x :: x in xs ==> x.confidence <= r[0].confidence
    ensures KeepsHighest(xs, r)
  {
    var sorted := SortByConfidence(xs);
    var r := sorted[..Min(TOP_K, |xs|)];
    assert sorted == r + sorted[|r|..];
    assert multiset(sorted) == multiset(r) + multiset(sorted[|r|..]);
    assert forall x :: x in xs ==> x.confidence <= r[0].confidence by {
      forall x | x in xs
        ensures x.confidence <= r[0].confidence
      {
        assert x in multiset(sorted);
        HeadIsMaximum(sorted, x);
      }
    }
    if xs == [] then r
    else
      DroppedAreLower(sorted, |r|);
      r
  }

  /** In any non-increasing rearrangement of `xs`, an element strictly more
      confident than every other comes first. */
  lemma {:induction false} SortedPermutationHead(xs: seq<Scored>, sorted: seq<Scored>, k: nat)
    requires k < |xs|
    requires forall j :: 0 <= j < |xs| && j != k ==> xs[j].confidence < xs[k].confidence
    requires multiset(sorted) == multiset(xs) && NonIncreasing(sorted)
    ensures sorted != [] && sorted[0] == xs[k]
  {
    assert xs[k] in multiset(sorted);
    var m :| 0 <= m < |sorted| && sorted[m] == xs[k];
    assert sorted[0] in multiset(xs);
    var j :| 0 <= j < |xs| && xs[j] == sorted[0];
    assert sorted[0].confidence >= sorted[m].confidence;
    assert j == k;
  }

  /** An element strictly more confident than every other is first after
      sorting and truncation. */
  lemma UniqueMaximumFirst(xs: seq<Scored>, k: nat)
    requires k < |xs|
    requires forall j :: 0 <= j < |xs| && j != k ==> xs[j].confidence < xs[k].confidence
    ensures RankTop(xs)[0] == xs[k]
  {
    SortedPermutationHead(xs, SortByConfidence(xs), k);
  }
}

=== FILE: recognition.dfy ===
/** The landmark-sequence recognition service of
    `services/gestureRecognition.ts`: feature extraction, the keep-last-30
    frame window, the readiness gate and the placeholder classifier. The
    service object is the record `RecognitionService`; each operation maps
    a record to its successor. */
module Recognition {
  import opened Base
  import opened Types
  import opened Gestures

  // ---------------------------------------------------------------------
  // Feature extraction
  // ---------------------------------------------------------------------

  /** `c || 0` for a coordinate: undefined and NaN become 0; a present
      number is kept (a 0 stays 0). */
  function ComponentValue(c: Component): real
  {
    match c
    case Value(v) => v
    case Missing => 0.0
  }

  /** Component `k` of a point, 0 when the point has no such component. */
  function Coord(p: Point, k: nat): real
  {
    if k < |p| then ComponentValue(p[k]) else 0.0
  }

  /** The coordinates of one region, three per point, in point order. */
  function RegionFeatures(region: seq<Point>): (r: seq<real>)
    ensures |r| == 3 * |region|
    ensures forall i, k :: 0 <= i < |region| && 0 <= k < 3 ==> r[3 * i + k] == Coord(region[i], k)
  {
    if region == [] then []
    else
      var n := |region| - 1;
      var prefix := RegionFeatures(region[..n]);
      assert forall i :: 0 <= i < n ==> region[..n][i] == region[i];
      prefix + [Coord(region[n], 0), Coord(region[n], 1), Coord(region[n], 2)]
  }

  /** Pose, then face, then left hand, then right hand: each region's block
      starts where the previous one ends. */
  function Flatten(l: LandmarkData): (r: seq<real>)
    ensures |r| == 3 * (|l.pose| + |l.face| + |l.leftHand| + |l.rightHand|)
    ensures forall i, k :: 0 <= i < |l.pose| && 0 <= k < 3 ==>
      r[3 * i + k] == Coord(l.pose[i], k)
    ensures forall i, k :: 0 <= i < |l.face| && 0 <= k < 3 ==>
      r[3 * (|l.pose| + i) + k] == Coord(l.face[i], k)
    ensures forall i, k :: 0 <= i < |l.leftHand| && 0 <= k < 3 ==>
      r[3 * (|l.pose| + |l.face| + i) + k] == Coord(l.leftHand[i], k)
    ensures forall i, k :: 0 <= i < |l.rightHand| && 0 <= k < 3 ==>
      r[3 * (|l.pose| + |l.face| + |l.leftHand| + i) + k] == Coord(l.rightHand[i], k)
  {
    var pose := RegionFeatures(l.pose);
    var face := RegionFeatures(l.face);
    var left := RegionFeatures(l.leftHand);
    var right := RegionFeatures(l.rightHand);
    var r := pose + face + left + right;
    BlockLayout([], l.pose, face + left + right);
    assert r == [] + pose + (face + left + right);
    BlockLayout(pose, l.face, left + right);
    assert r == pose + face + (left + right);
    BlockLayout(pose + face, l.leftHand, right);
    assert r == (pose + face) + left + right;
    BlockLayout(pose + face + left, l.rightHand, []);
    assert r == (pose + face + left) + right + [];
    r
  }

  /** A region's block, wherever it sits, holds its points in order. */
  lemma BlockLayout(before: seq<real>, region: seq<Point>, after: seq<real>)
    ensures forall i, k :: 0 <= i < |region| && 0 <= k < 3 ==>
      (before + RegionFeatures(region) + after)[|before| + 3 * i + k] == Coord(region[i], k)
  {
  }

  /** The padding loop: push zeros while the vector is shorter than `n`. */
  function PadWithZeros(xs: seq<real>, n: nat): (r: seq<real>)
    ensures |r| == Max(|xs|, n)
    ensures r[..|xs|] == xs
    ensures forall i :: |xs| <= i < |r| ==> r[i] == 0.0
    decreases n - |xs|
  {
    if |xs| < n then PadWithZeros(xs + [0.0], n) else xs
  }

  /** `extractFeatures`: always exactly TOTAL_FEATURES numbers. A short
      concatenation is a prefix followed by zeros; a long one is cut. */
  function ExtractFeatures(l: LandmarkData): (r: seq<real>)
    ensures |r| == TOTAL_FEATURES
    ensures |Flatten(l)| <= TOTAL_FEATURES ==>
      r[..|Flatten(l)|] == Flatten(l)
      && forall i :: |Flatten(l)| <= i < TOTAL_FEATURES ==> r[i] == 0.0
    ensures |Flatten(l)| > TOTAL_FEATURES ==> r == Flatten(l)[..TOTAL_FEATURES]
  {
    var padded := PadWithZeros(Flatten(l), TOTAL_FEATURES);
    assert padded[..|Flatten(l)|] == Flatten(l);
    padded[..TOTAL_FEATURES]
  }

  /** Every number below the fill level comes from the sample: position
      `3*i+k` of the pose block is component `k` of pose point `i`. */
  lemma PoseLayout(l: LandmarkData, i: nat, k: nat)
    requires i < |l.pose| && k < 3 && 3 * i + k < TOTAL_FEATURES
    ensures ExtractFeatures(l)[3 * i + k] == Coord(l.pose[i], k)
  {
    var raw := Flatten(l);
    var r := ExtractFeatures(l);
    assert raw[3 * i + k] == RegionFeatures(l.pose)[3 * i + k];
    if |raw| <= TOTAL_FEATURES {
      assert r[..|raw|][3 * i + k] == raw[3 * i + k];
    }
  }

  /** The face block follows the pose block: position `3*(|pose|+i)+k` is
      component `k` of face point `i` whenever it falls inside the vector. */
  lemma FaceLayout(l: LandmarkData, i: nat, k: nat)
    requires i < |l.face| && k < 3 && 3 * (|l.pose| + i) + k < TOTAL_FEATURES
    ensures ExtractFeatures(l)[3 * (|l.pose| + i) + k] == Coord(l.face[i], k)
  {
    var raw := Flatten(l);
    var r := ExtractFeatures(l);
    var p := 3 * (|l.pose| + i) + k;
    assert raw[p] == Coord(l.face[i], k);
    if |raw| <= TOTAL_FEATURES {
      assert r[..|raw|][p] == raw[p];
    }
  }

  /** A sample with every region empty yields the all-zero vector. */
  lemma EmptySampleIsZero(l: LandmarkData)
    requires l.pose == [] && l.face == [] && l.leftHand == [] && l.rightHand == []
    ensures ExtractFeatures(l) == seq(TOTAL_FEATURES, _ => 0.0)
  {
  }

  /** A full pose and at least 24 face points fill the vector, so the hands
      never reach it: the result ignores both hands entirely. */
  lemma HandsDroppedWhenPoseAndFaceFill(l: LandmarkData)
    requires |l.pose| == POSE && |l.face| >= 24
    ensures ExtractFeatures(l) == (RegionFeatures(l.pose) + RegionFeatures(l.face))[..TOTAL_FEATURES]
    ensures ExtractFeatures(l) == ExtractFeatures(l.(leftHand := [], rightHand := []))
  {
    // 171 numbers are exactly a full pose and 24 face points.
    assert TOTAL_FEATURES == 3 * (POSE + 24);
    var head := RegionFeatures(l.pose) + RegionFeatures(l.face);
    var raw := Flatten(l);
    assert raw == head + (RegionFeatures(l.leftHand) + RegionFeatures(l.rightHand));
    assert raw[..TOTAL_FEATURES] == head[..TOTAL_FEATURES];
    var l' := l.(leftHand := [], rightHand := []);
    assert Flatten(l') == head;
    if |head| == TOTAL_FEATURES {
      assert ExtractFeatures(l') == Flatten(l')[..TOTAL_FEATURES];
    }
  }

  // ---------------------------------------------------------------------
  // Frame window
  // ---------------------------------------------------------------------

  datatype RecognitionService = RecognitionService(frameBuffer: seq<FrameFeatures>, isProcessing: bool)

  const FreshService: RecognitionService := RecognitionService([], false)

  /** One landmark sample with its arrival time (`Date.now()`). */
  datatype Sample = Sample(landmarks: LandmarkData, timestamp: int)

  function FrameOf(x: Sample): FrameFeatures
  {
    FrameFeatures(x.landmarks, x.timestamp, ExtractFeatures(x.landmarks))
  }

  /** The frames of a run of samples, in arrival order. */
  function Frames(xs: seq<Sample>): (fs: seq<FrameFeatures>)
    ensures |fs| == |xs|
  {
    seq(|xs|, i requires 0 <= i < |xs| => FrameOf(xs[i]))
  }

  /** `push` then at most one `shift` when the window overflows. */
  function Push(buffer: seq<FrameFeatures>, f: FrameFeatures): seq<FrameFeatures>
  {
    var b := buffer + [f];
    if |b| > SEQUENCE_LENGTH then b[1..] else b
  }

  /** `addFrame` */
  function AddFrame(s: RecognitionService, x: Sample): (r: RecognitionService)
    ensures r.isProcessing == s.isProcessing
    ensures 0 < |r.frameBuffer| && r.frameBuffer[|r.frameBuffer| - 1] == FrameOf(x)
    ensures |s.frameBuffer| <= SEQUENCE_LENGTH ==>
      |r.frameBuffer| == Min(|s.frameBuffer| + 1, SEQUENCE_LENGTH)
  {
    s.(frameBuffer := Push(s.frameBuffer, FrameOf(x)))
  }

  function AddFrames(s: RecognitionService, xs: seq<Sample>): RecognitionService
    decreases |xs|
  {
    if xs == [] then s else AddFrame(AddFrames(s, xs[..|xs| - 1]), xs[|xs| - 1])
  }

  /** The most recent `SEQUENCE_LENGTH` elements (all of them if fewer). */
  function Window<T>(xs: seq<T>): (w: seq<T>)
  {
    if |xs| <= SEQUENCE_LENGTH then xs else xs[|xs| - SEQUENCE_LENGTH..]
  }

  lemma PushWindow(xs: seq<FrameFeatures>, f: FrameFeatures)
    ensures Push(Window(xs), f) == Window(xs + [f])
  {
    if |xs| >= SEQUENCE_LENGTH {
      var n := |xs|;
      assert (xs[n - SEQUENCE_LENGTH..] + [f])[1..] == xs[n - SEQUENCE_LENGTH + 1..] + [f];
      assert (xs + [f])[n + 1 - SEQUENCE_LENGTH..] == xs[n - SEQUENCE_LENGTH + 1..] + [f];
    }
  }

  lemma WindowLength<T>(xs: seq<T>)
    ensures |Window(xs)| == Min(|xs|, SEQUENCE_LENGTH)
  {
  }

  lemma FramesSnoc(xs: seq<Sample>)
    requires xs != []
    ensures Frames(xs) == Frames(xs[..|xs| - 1]) + [FrameOf(xs[|xs| - 1])]
  {
  }

  /** After any run of `addFrame` calls the buffer holds the latest
      `min(n, 30)` frames of everything appended, in arrival order. */
  lemma {:induction false} AddFramesKeepsLatest(s: RecognitionService, xs: seq<Sample>)
    requires |s.frameBuffer| <= SEQUENCE_LENGTH
    ensures AddFrames(s, xs).frameBuffer == Window(s.frameBuffer + Frames(xs))
    ensures |AddFrames(s, xs).frameBuffer| == Min(|s.frameBuffer| + |xs|, SEQUENCE_LENGTH)
    ensures AddFrames(s, xs).isProcessing == s.isProcessing
    decreases |xs|
  {
    var all := s.frameBuffer + Frames(xs);
    if xs == [] {
      assert all == s.frameBuffer;
    } else {
      var init := xs[..|xs| - 1];
      var f := FrameOf(xs[|xs| - 1]);
      var before := s.frameBuffer + Frames(init);
      AddFramesKeepsLatest(s, init);
      var prev := AddFrames(s, init);
      assert AddFrames(s, xs) == AddFrame(prev, xs[|xs| - 1]);
      assert AddFrames(s, xs).frameBuffer == Push(Window(before), f);
      PushWindow(before, f);
      FramesSnoc(xs);
      assert all == before + [f];
    }
    WindowLength(all);
  }

  /** `isReadyForPrediction` */
  predicate IsReadyForPrediction(s: RecognitionService)
    ensures IsReadyForPrediction(s) <==> GetBufferStatus(s).percentage == 100.0 && !s.isProcessing
  {
    |s.frameBuffer| == SEQUENCE_LENGTH && !s.isProcessing
  }

  /** `clearBuffer` */
  function ClearBuffer(s: RecognitionService): (r: RecognitionService)
    ensures r.frameBuffer == [] && r.isProcessing == s.isProcessing
  {
    s.(frameBuffer := [])
  }

  lemma ClearBufferIdempotent(s: RecognitionService)
    ensures ClearBuffer(ClearBuffer(s)) == ClearBuffer(s)
    ensures !IsReadyForPrediction(ClearBuffer(s))
  {
  }

  // ---------------------------------------------------------------------
  // Prediction
  // ---------------------------------------------------------------------

  datatype Prediction = Prediction(gestureIndex: int, confidence: real)

  /** `mockTFLiteInference`: a class index from one draw and a confidence
      `0.75 + 0.2 * u` from another; the window contents are ignored. */
  function MockInference(uIndex: Unit, uConfidence: Unit): (p: Prediction)
    ensures 0 <= p.gestureIndex < |ISL_GESTURES|
    ensures 0.75 <= p.confidence < 0.95
  {
    Prediction((uIndex * |ISL_GESTURES| as real).Floor, 0.75 + uConfidence * 0.2)
  }

  /** Every catalog index and every confidence of the range is produced by
      some pair of draws. */
  lemma MockInferenceCoversRange(i: nat, c: real)
    requires i < |ISL_GESTURES| && 0.75 <= c < 0.95
    ensures exists u1: Unit, u2: Unit :: MockInference(u1, u2) == Prediction(i, c)
  {
    var u1: Unit := i as real / |ISL_GESTURES| as real;
    var u2: Unit := (c - 0.75) * 5.0;
    assert u1 * |ISL_GESTURES| as real == i as real;
    assert MockInference(u1, u2) == Prediction(i, c);
  }

  /** `predictGesture`: null unless ready; otherwise the mock inference.
      `isProcessing` is raised and lowered again within the call, so the
      record the caller sees afterwards is the one it passed in. */
  function PredictGesture(s: RecognitionService, uIndex: Unit, uConfidence: Unit)
    : (r: (RecognitionService, Option<Prediction>))
    ensures r.0 == s
    ensures r.1.Some? <==> IsReadyForPrediction(s)
    ensures r.1.Some? ==>
      0 <= r.1.value.gestureIndex < |ISL_GESTURES| && 0.75 <= r.1.value.confidence < 0.95
  {
    if !IsReadyForPrediction(s) then (s, None)
    else
      var busy := s.(isProcessing := true);
      var p := MockInference(uIndex, uConfidence);
      (busy.(isProcessing := false), Some(p))
  }

  // ---------------------------------------------------------------------
  // Fill level
  // ---------------------------------------------------------------------

  datatype BufferStatus = BufferStatus(current: int, required: int, percentage: real)

  /** `getBufferStatus` */
  function GetBufferStatus(s: RecognitionService): (st: BufferStatus)
    ensures st.current == |s.frameBuffer| && st.required == SEQUENCE_LENGTH
    ensures st.percentage * SEQUENCE_LENGTH as real == 100.0 * st.current as real
    ensures |s.frameBuffer| <= SEQUENCE_LENGTH ==> 0.0 <= st.percentage <= 100.0
    ensures st.percentage == 100.0 <==> |s.frameBuffer| == SEQUENCE_LENGTH
    ensures st.percentage == 0.0 <==> s.frameBuffer == []
  {
    BufferStatus(|s.frameBuffer|, SEQUENCE_LENGTH,
                 (|s.frameBuffer| as real / SEQUENCE_LENGTH as real) * 100.0)
  }

  /** Between clears the fill level never drops; a cleared buffer reports 0. */
  lemma StatusMonotone(s: RecognitionService, x: Sample)
    requires |s.frameBuffer| <= SEQUENCE_LENGTH
    ensures GetBufferStatus(s).percentage <= GetBufferStatus(AddFrame(s, x)).percentage
    ensures GetBufferStatus(ClearBuffer(s)) == BufferStatus(0, SEQUENCE_LENGTH, 0.0)
  {
  }
}

=== FILE: simple.dfy ===
/** The placeholder image classifier of `services/gestureRecognitionSimple.ts`:
    a fixed label table and a mock generator behind the same guards as the
    model-backed service. Each `Math.random()` draw is an input. */
module SimpleService {
  import opened Base
  import opened Gestures
  import opened Ranking

  /** The label table, key `"i"` stored at position `i`; `Object.entries`
      visits integer keys in ascending order. */
  const MODEL_LABELS: seq<string> := ["1", "2", "3", "4", "5", "6", "7", "8", "9", "A", "B"]

  /** The table names the catalog's gestures in catalog order. */
  lemma LabelsMatchCatalog()
    ensures |MODEL_LABELS| == |ISL_GESTURES|
    ensures forall i :: 0 <= i < |MODEL_LABELS| ==> MODEL_LABELS[i] == ISL_GESTURES[i].name
  {
  }

  /** `model !== null`, `isModelLoaded`, `this.tf !== null`, `isProcessing`. */
  datatype SimpleState = SimpleState(
    hasModel: bool,
    isModelLoaded: bool,
    tfLoaded: bool,
    isProcessing: bool)

  /** The draws behind one mock prediction: the class, its confidence, and
      one draw per label for the labels that were not chosen. */
  datatype MockDraws = MockDraws(index: Unit, confidence: Unit, noise: seq<Unit>)

  /** The unsorted `allPredictions`: the chosen label carries the chosen
      confidence, every other label `0.3 * noise`. */
  function MockEntries(chosen: nat, confidence: real, noise: seq<Unit>): (r: seq<Scored>)
    requires chosen < |MODEL_LABELS| && |noise| == |MODEL_LABELS|
    requires 0.3 <= confidence
    ensures |r| == |MODEL_LABELS|
    ensures forall i :: 0 <= i < |r| ==> r[i].name == MODEL_LABELS[i]
    ensures r[chosen].confidence == confidence
    ensures forall i :: 0 <= i < |r| && i != chosen ==> 0.0 <= r[i].confidence < 0.3
    ensures forall i :: 0 <= i < |r| && i != chosen ==> r[i].confidence < r[chosen].confidence
  {
    seq(|MODEL_LABELS|, i requires 0 <= i < |MODEL_LABELS| =>
      Scored(MODEL_LABELS[i], if i == chosen then confidence else noise[i] * 0.3))
  }

  /** `getMockPrediction` */
  function GetMockPrediction(d: MockDraws): (r: PredictionResult)
    requires |d.noise| == |MODEL_LABELS|
    ensures 0 <= r.gestureIndex < |MODEL_LABELS|
    ensures 0.75 <= r.confidence < 0.95
    ensures r.gesture == Some(MODEL_LABELS[r.gestureIndex])
    ensures |r.allPredictions| == TOP_K
    ensures NonIncreasing(r.allPredictions)
    ensures r.allPredictions[0] == Scored(MODEL_LABELS[r.gestureIndex], r.confidence)
    ensures multiset(r.allPredictions) <= multiset(MockEntries(r.gestureIndex, r.confidence, d.noise))
    ensures KeepsHighest(MockEntries(r.gestureIndex, r.confidence, d.noise), r.allPredictions)
  {
    var index := (d.index * |MODEL_LABELS| as real).Floor;
    var confidence := 0.75 + d.confidence * 0.2;
    var entries := MockEntries(index, confidence, d.noise);
    UniqueMaximumFirst(entries, index);
    PredictionResult(index, Some(MODEL_LABELS[index]), confidence, RankTop(entries))
  }

  /** The head of `predictGesture`: without a loaded model it answers with a
      mock straight away (leaving the flag alone); a call that finds the
      flag raised returns null; otherwise it raises the flag and awaits. */
  function BeginPredict(s: SimpleState, d: MockDraws): (r: (SimpleState, Entry))
    requires |d.noise| == |MODEL_LABELS|
    ensures r.1.Returned? ==> r.0 == s
    ensures !(s.isModelLoaded && s.tfLoaded) ==> r.1 == Returned(Some(GetMockPrediction(d)))
    ensures s.isModelLoaded && s.tfLoaded && s.isProcessing ==> r.1 == Returned(None)
    ensures r.1.Awaiting? <==> s.isModelLoaded && s.tfLoaded && !s.isProcessing
    ensures r.1.Awaiting? ==> r.0 == s.(isProcessing := true)
  {
    if !s.isModelLoaded || !s.tfLoaded then (s, Returned(Some(GetMockPrediction(d))))
    else if s.isProcessing then (s, Returned(None))
    else (s.(isProcessing := true), Awaiting)
  }

  /** The rest: preprocessing either succeeds (then a mock is returned) or
      throws (then null); the `finally` lowers the flag on both paths. */
  function FinishPredict(s: SimpleState, preprocessed: bool, d: MockDraws)
    : (r: (SimpleState, Option<PredictionResult>))
    requires |d.noise| == |MODEL_LABELS|
    ensures r.0 == s.(isProcessing := false)
    ensures r.1.Some? <==> preprocessed
    ensures r.1.Some? ==> r.1.value == GetMockPrediction(d)
  {
    if preprocessed then (s.(isProcessing := false), Some(GetMockPrediction(d)))
    else (s.(isProcessing := false), None)
  }

  /** `predictGesture` run to completion: the state is left as it was found;
      null only when another call holds the flag or preprocessing throws. */
  function PredictGesture(s: SimpleState, preprocessed: bool, d: MockDraws)
    : (r: (SimpleState, Option<PredictionResult>))
    requires |d.noise| == |MODEL_LABELS|
    ensures r.0 == s
    ensures r.1.None? <==> s.isModelLoaded && s.tfLoaded && (s.isProcessing || !preprocessed)
    ensures r.1.Some? ==> r.1.value == GetMockPrediction(d)
  {
    var (s1, entry) := BeginPredict(s, d);
    match entry
    case Returned(result) => (s1, result)
    case Awaiting => FinishPredict(s1, preprocessed, d)
  }

  /** A call overlapping a suspended one returns null without touching the
      state, and the suspended one still lowers the flag when it ends. */
  lemma OverlappingCallRejected(s: SimpleState, d: MockDraws, e: MockDraws, preprocessed: bool, again: bool)
    requires |d.noise| == |MODEL_LABELS| && |e.noise| == |MODEL_LABELS|
    requires BeginPredict(s, d).1.Awaiting?
    ensures PredictGesture(BeginPredict(s, d).0, again, e) == (BeginPredict(s, d).0, None)
    ensures !FinishPredict(BeginPredict(s, d).0, preprocessed, d).0.isProcessing
  {
  }

  /** `isReady` */
  predicate IsReady(s: SimpleState)
    ensures !IsReady(s) ==> forall d: MockDraws | |d.noise| == |MODEL_LABELS| ::
      BeginPredict(s, d).1 == Returned(Some(GetMockPrediction(d)))
  {
    s.isModelLoaded
  }

  /** `dispose` */
  function Dispose(s: SimpleState): (r: SimpleState)
    ensures !IsReady(r) && !r.hasModel
    ensures r.tfLoaded == s.tfLoaded && r.isProcessing == s.isProcessing
  {
    s.(hasModel := false, isModelLoaded := false)
  }

  /** After `dispose` predictions fall back to the mock, never to null. */
  lemma DisposedFallsBackToMock(s: SimpleState, preprocessed: bool, d: MockDraws)
    requires |d.noise| == |MODEL_LABELS|
    ensures PredictGesture(Dispose(s), preprocessed, d).1 == Some(GetMockPrediction(d))
  {
  }
}

=== FILE: storage.dfy ===
/** The list bookkeeping of `services/storage.ts`. AsyncStorage becomes one
    slot per key; a slot holds nothing, something `JSON.parse` (or the
    mapping after it) rejects, or a value. Clocks and random ids are inputs. */
module Storage {
  import opened Base
  import opened Types
  import opened Gestures

  datatype Slot<T> = Absent | Unparseable | Stored(value: T)

  /** The four keys `@isl_settings`, `@isl_history`, `@isl_progress` and
      `@isl_session_id`; the session id is stored as a plain string. */
  datatype Store = Store(
    settings: Slot<AppSettings>,
    history: Slot<seq<TranslationResult>>,
    progress: Slot<seq<UserProgress>>,
    sessionId: Option<string>)

  const EmptyStore: Store := Store(Absent, Absent, Absent, None)

  const MAX_HISTORY: nat := 100

  const DEFAULT_SETTINGS: AppSettings := AppSettings(true, 1.0, 0.7, Medium)

  // ---------------------------------------------------------------------
  // Settings
  // ---------------------------------------------------------------------

  /** `getSettings`: the stored settings, or the defaults when there are
      none or they cannot be read. */
  function GetSettings(st: Store): (r: AppSettings)
    ensures st.settings.Stored? ==> r == st.settings.value
    ensures !st.settings.Stored? ==>
      r.speechEnabled && r.speechRate == 1.0 && r.cameraResolution == Medium
      && r.confidenceThreshold == DEFAULT_CONFIDENCE_THRESHOLD
  {
    if st.settings.Stored? then st.settings.value else DEFAULT_SETTINGS
  }

  /** `saveSettings` */
  function SaveSettings(st: Store, s: AppSettings): (r: Store)
    ensures GetSettings(r) == s
    ensures r.history == st.history && r.progress == st.progress && r.sessionId == st.sessionId
  {
    st.(settings := Stored(s))
  }

  // ---------------------------------------------------------------------
  // History
  // ---------------------------------------------------------------------

  /** `getHistory`: the stored list, or empty when there is none or it
      cannot be read. */
  function GetHistory(st: Store): (r: seq<TranslationResult>)
    ensures st.history.Stored? ==> r == st.history.value
    ensures st.history == Absent || st.history == Unparseable ==> r == []
  {
    if st.history.Stored? then st.history.value else []
  }

  /** `addToHistory`: newest first, capped at `MAX_HISTORY` by dropping the
      oldest entry. */
  function AddToHistory(st: Store, result: TranslationResult): (r: Store)
    ensures |GetHistory(r)| == Min(|GetHistory(st)| + 1, MAX_HISTORY)
    ensures GetHistory(r)[0] == result
    ensures GetHistory(r)[1..] == GetHistory(st)[..|GetHistory(r)| - 1]
    ensures r.settings == st.settings && r.progress == st.progress && r.sessionId == st.sessionId
  {
    var history := [result] + GetHistory(st);
    var limited := history[..Min(|history|, MAX_HISTORY)];
    assert limited[1..] == GetHistory(st)[..|limited| - 1];
    st.(history := Stored(limited))
  }

  /** `clearHistory` */
  function ClearHistory(st: Store): (r: Store)
    ensures GetHistory(r) == []
    ensures r.settings == st.settings && r.progress == st.progress && r.sessionId == st.sessionId
  {
    st.(history := Absent)
  }

  /** The newest `MAX_HISTORY` results of a run of additions, newest first. */
  function AddAllToHistory(st: Store, results: seq<TranslationResult>): Store
    decreases |results|
  {
    if results == [] then st
    else AddToHistory(AddAllToHistory(st, results[..|results| - 1]), results[|results| - 1])
  }

  function Reversed<T>(xs: seq<T>): (r: seq<T>)
    ensures |r| == |xs|
    ensures forall i :: 0 <= i < |xs| ==> r[i] == xs[|xs| - 1 - i]
  {
    if xs == [] then [] else [xs[|xs| - 1]] + Reversed(xs[..|xs| - 1])
  }

  /** After any run of additions the history is the newest entries first,
      followed by the older history, cut to `MAX_HISTORY`. */
  lemma {:induction false} HistoryKeepsNewest(st: Store, results: seq<TranslationResult>)
    requires |GetHistory(st)| <= MAX_HISTORY
    ensures var all := Reversed(results) + GetHistory(st);
      GetHistory(AddAllToHistory(st, results)) == all[..Min(|all|, MAX_HISTORY)]
    decreases |results|
  {
    if results != [] {
      var init := results[..|results| - 1];
      var last := results[|results| - 1];
      HistoryKeepsNewest(st, init);
      var prev := Reversed(init) + GetHistory(st);
      var all := Reversed(results) + GetHistory(st);
      assert Reversed(results) == [last] + Reversed(init);
      assert all == [last] + prev;
      var mid := AddAllToHistory(st, init);
      var h := GetHistory(AddToHistory(mid, last));
      assert GetHistory(mid) == prev[..Min(|prev|, MAX_HISTORY)];
      assert h == all[..Min(|all|, MAX_HISTORY)] by {
        assert |h| == Min(|all|, MAX_HISTORY);
        forall i | 0 <= i < |h|
          ensures h[i] == all[i]
        {
          if i > 0 {
            assert h[i] == h[1..][i - 1];
          }
        }
      }
    } else {
      assert Reversed(results) + GetHistory(st) == GetHistory(st);
    }
  }

  // ---------------------------------------------------------------------
  // Progress
  // ---------------------------------------------------------------------

  /** `getProgress` */
  function GetProgress(st: Store): (r: seq<UserProgress>)
    ensures st.progress.Stored? ==> r == st.progress.value
    ensures st.progress == Absent || st.progress == Unparseable ==> r == []
  {
    if st.progress.Stored? then st.progress.value else []
  }

  predicate IsFirstMatch(ps: seq<UserProgress>, gestureId: string, i: nat)
  {
    i < |ps| && ps[i].gestureId == gestureId
    && forall j :: 0 <= j < i ==> ps[j].gestureId != gestureId
  }

  /** `progress.find(p => p.gestureId === gestureId)`, as an index. */
  function FindProgress(ps: seq<UserProgress>, gestureId: string): (r: Option<nat>)
    ensures r.Some? ==> IsFirstMatch(ps, gestureId, r.value)
    ensures r.None? ==> forall j :: 0 <= j < |ps| ==> ps[j].gestureId != gestureId
  {
    if ps == [] then None
    else if ps[0].gestureId == gestureId then Some(0)
    else
      match FindProgress(ps[1..], gestureId)
      case None => None
      case Some(i) => Some(i + 1)
  }

  /** The new mastery level after one practice. */
  function NextMastery(m: int, correct: bool): (r: int)
  {
    if correct then Min(100, m + 5) else Max(0, m - 2)
  }

  /** `updateProgress`: the first entry for the gesture counts one more
      practice; an unknown gesture gets a fresh entry at the end. */
  function UpdateProgress(st: Store, gestureId: string, correct: bool, newId: string, now: int): (r: Store)
    ensures r.settings == st.settings && r.history == st.history && r.sessionId == st.sessionId
    ensures forall i: nat :: IsFirstMatch(GetProgress(st), gestureId, i) ==>
      var before := GetProgress(st);
      var after := GetProgress(r);
      |after| == |before|
      && after[i].id == before[i].id && after[i].gestureId == gestureId
      && after[i].practiceCount == before[i].practiceCount + 1
      && after[i].lastPracticedAt == now
      && (correct ==> after[i].masteryLevel == Min(100, before[i].masteryLevel + 5))
      && (!correct ==> after[i].masteryLevel == Max(0, before[i].masteryLevel - 2))
      && forall j :: 0 <= j < |before| && j != i ==> after[j] == before[j]
    ensures (forall j :: 0 <= j < |GetProgress(st)| ==> GetProgress(st)[j].gestureId != gestureId) ==>
      GetProgress(r) == GetProgress(st) + [UserProgress(newId, gestureId, 1, now, if correct then 5 else 0)]
  {
    var progress := GetProgress(st);
    match FindProgress(progress, gestureId)
    case Some(i) =>
      var p := progress[i];
      var updated := p.(practiceCount := p.practiceCount + 1, lastPracticedAt := now,
                        masteryLevel := NextMastery(p.masteryLevel, correct));
      st.(progress := Stored(progress[i := updated]))
    case None =>
      st.(progress := Stored(progress + [UserProgress(newId, gestureId, 1, now, if correct then 5 else 0)]))
  }

  predicate MasteryInRange(ps: seq<UserProgress>)
  {
    forall i :: 0 <= i < |ps| ==> 0 <= ps[i].masteryLevel <= 100
  }

  predicate DistinctGestures(ps: seq<UserProgress>)
  {
    forall i, j :: 0 <= i < j < |ps| ==> ps[i].gestureId != ps[j].gestureId
  }

  /** Mastery stays within [0, 100] and each gesture keeps at most one
      entry, whatever is practised. */
  lemma UpdateProgressKeepsInvariants(st: Store, gestureId: string, correct: bool, newId: string, now: int)
    requires MasteryInRange(GetProgress(st)) && DistinctGestures(GetProgress(st))
    ensures MasteryInRange(GetProgress(UpdateProgress(st, gestureId, correct, newId, now)))
    ensures DistinctGestures(GetProgress(UpdateProgress(st, gestureId, correct, newId, now)))
  {
    var before := GetProgress(st);
    var after := GetProgress(UpdateProgress(st, gestureId, correct, newId, now));
    match FindProgress(before, gestureId)
    case Some(i) =>
      assert IsFirstMatch(before, gestureId, i);
      assert forall j :: 0 <= j < |after| ==> after[j].gestureId == before[j].gestureId;
    case None =>
  }

  // ---------------------------------------------------------------------
  // Session id
  // ---------------------------------------------------------------------

  /** `getSessionId`: a stored non-empty id is reused; otherwise
      `session_<now>_<suffix>` is made and stored. */
  function GetSessionId(st: Store, now: nat, suffix: string): (r: (Store, string))
    ensures r.1 != "" && r.0.sessionId == Some(r.1)
    ensures st.sessionId.Some? && st.sessionId.value != "" ==> r == (st, st.sessionId.value)
    ensures !(st.sessionId.Some? && st.sessionId.value != "") ==>
      r.1 == "session_" + NatToString(now) + "_" + suffix
    ensures r.0.settings == st.settings && r.0.history == st.history && r.0.progress == st.progress
  {
    if st.sessionId.Some? && st.sessionId.value != "" then (st, st.sessionId.value)
    else
      var id := "session_" + NatToString(now) + "_" + suffix;
      (st.(sessionId := Some(id)), id)
  }

  /** A second request returns the first one's id and changes nothing. */
  lemma SessionIdStable(st: Store, now: nat, suffix: string, later: nat, suffix': string)
    ensures var (st1, id1) := GetSessionId(st, now, suffix);
      GetSessionId(st1, later, suffix') == (st1, id1)
  {
  }

  /** `resetSessionId` */
  function ResetSessionId(st: Store): (r: Store)
    ensures r.sessionId == None
    ensures r.settings == st.settings && r.history == st.history && r.progress == st.progress
  {
    st.(sessionId := None)
  }

  /** A store with nothing saved yet: the first launch sees the default
      settings, no history, no progress, and a newly created session id. */
  lemma FirstLaunch(now: nat, suffix: string)
    ensures GetSettings(EmptyStore) == DEFAULT_SETTINGS
    ensures GetHistory(EmptyStore) == [] && GetProgress(EmptyStore) == []
    ensures GetSessionId(EmptyStore, now, suffix).1 == "session_" + NatToString(now) + "_" + suffix
  {
  }
}

=== FILE: tflite.dfy ===
/** The model-backed image classifier of `services/gestureRecognitionTFLite.ts`,
    reduced to what happens around the tensor work: the two guards, the
    re-entrancy flag, the arg-max scan, the label fallback and the ranking.
    The model's output scores (or the exception thrown while producing them)
    are an input. */
module TFLiteService {
  import opened Base
  import opened Ranking

  /** `model !== null`, `isModelLoaded`, `isProcessing` and the label table
      read from `labels.json` (entry `i` is the label under key `"i"`). */
  datatype TFLiteState = TFLiteState(
    hasModel: bool,
    isModelLoaded: bool,
    isProcessing: bool,
    labels: seq<string>)

  /** What preprocessing and `model.predict` produced. */
  datatype Inference = Threw | Scores(data: seq<real>)

  /** The state of the arg-max loop after its first `n` iterations:
      `(bestIndex, maxConfidence)`, starting from `(0, 0)` and moving only on
      a strictly greater score. */
  function ScanBest(data: seq<real>, n: nat): (r: (nat, real))
    requires n <= |data|
    ensures 0.0 <= r.1
    ensures forall j :: 0 <= j < n ==> data[j] <= r.1
    ensures r.1 == 0.0 ==> r.0 == 0
    ensures r.1 == 0.0 <==> forall j :: 0 <= j < n ==> data[j] <= 0.0
    ensures 0.0 < r.1 ==>
      r.0 < n && data[r.0] == r.1 && forall j :: 0 <= j < r.0 ==> data[j] < r.1
  {
    if n == 0 then (0, 0.0)
    else
      var prev := ScanBest(data, n - 1);
      if data[n - 1] > prev.1 then (n - 1, data[n - 1]) else prev
  }

  /** `labels[i] || fallback`: a missing or empty label falls back. */
  function LabelOr(labels: seq<string>, i: nat, fallback: string): string
  {
    if i < |labels| && labels[i] != "" then labels[i] else fallback
  }

  function UnknownLabel(i: nat): string
  {
    "Unknown_" + NatToString(i)
  }

  /** One entry per score, in score order, labelled with fallback. */
  function Labelled(data: seq<real>, labels: seq<string>): (r: seq<Scored>)
    ensures |r| == |data|
    ensures forall i :: 0 <= i < |r| ==>
      r[i].confidence == data[i]
      && (i < |labels| && labels[i] != "" ==> r[i].name == labels[i])
      && (i >= |labels| || labels[i] == "" ==> r[i].name == UnknownLabel(i))
  {
    seq(|data|, i requires 0 <= i < |data| => Scored(LabelOr(labels, i, UnknownLabel(i)), data[i]))
  }

  /** `allPredictions`: the labelled scores, sorted, cut to the top five. */
  function Ranked(data: seq<real>, labels: seq<string>): (r: seq<Scored>)
    ensures |r| == Min(TOP_K, |data|)
    ensures NonIncreasing(r)
    ensures multiset(r) <= multiset(Labelled(data, labels))
    ensures KeepsHighest(Labelled(data, labels), r)
    ensures 0.0 < ScanBest(data, |data|).1 ==> r[0].confidence == ScanBest(data, |data|).1
  {
    var best := ScanBest(data, |data|);
    var all := Labelled(data, labels);
    var top := RankTop(all);
    if 0.0 < best.1 then
      assert all[best.0] in all;
      assert top[0] in multiset(all);
      var j :| 0 <= j < |all| && all[j] == top[0];
      assert data[j] <= best.1;
      top
    else top
  }

  /** Everything after `predictions.data()` in `predictGesture`. */
  function PostProcess(data: seq<real>, labels: seq<string>): (r: PredictionResult)
    ensures 0 <= r.gestureIndex && (data != [] ==> r.gestureIndex < |data|)
    ensures 0.0 <= r.confidence
    ensures forall j :: 0 <= j < |data| ==> data[j] <= r.confidence
    ensures 0.0 < r.confidence ==>
      r.gestureIndex < |data| && data[r.gestureIndex] == r.confidence
      && forall j :: 0 <= j < r.gestureIndex ==> data[j] < r.confidence
    ensures r.confidence == 0.0 <==> forall j :: 0 <= j < |data| ==> data[j] <= 0.0
    ensures r.confidence == 0.0 ==> r.gestureIndex == 0
    ensures r.gesture == Some(
      if r.gestureIndex < |labels| && labels[r.gestureIndex] != "" then labels[r.gestureIndex]
      else "Unknown")
    ensures |r.allPredictions| == Min(TOP_K, |data|)
    ensures NonIncreasing(r.allPredictions)
    ensures multiset(r.allPredictions) <= multiset(Labelled(data, labels))
    ensures KeepsHighest(Labelled(data, labels), r.allPredictions)
    ensures 0.0 < r.confidence ==> r.allPredictions[0].confidence == r.confidence
  {
    var best := ScanBest(data, |data|);
    PredictionResult(best.0, Some(LabelOr(labels, best.0, "Unknown")), best.1, Ranked(data, labels))
  }

  /** The guards up to the first `await`: not loaded or already
      processing return null; otherwise the flag is raised. */
  function BeginPredict(s: TFLiteState): (r: (TFLiteState, Entry))
    ensures r.1.Returned? ==> r.0 == s && r.1.result == None
    ensures r.1.Awaiting? <==> s.isModelLoaded && s.hasModel && !s.isProcessing
    ensures r.1.Awaiting? ==> r.0 == s.(isProcessing := true)
  {
    if !s.isModelLoaded || !s.hasModel then (s, Returned(None))
    else if s.isProcessing then (s, Returned(None))
    else (s.(isProcessing := true), Awaiting)
  }

  /** The rest of the call: the `finally` lowers the flag whatever happened. */
  function FinishPredict(s: TFLiteState, inference: Inference): (r: (TFLiteState, Option<PredictionResult>))
    ensures r.0 == s.(isProcessing := false)
    ensures r.1.Some? <==> inference.Scores?
    ensures inference.Scores? ==> r.1 == Some(PostProcess(inference.data, s.labels))
  {
    match inference
    case Threw => (s.(isProcessing := false), None)
    case Scores(data) => (s.(isProcessing := false), Some(PostProcess(data, s.labels)))
  }

  /** `predictGesture` run to completion without interleaving: whatever
      path it takes, the flag it raised is lowered again, so the state the
      caller sees afterwards is the one it started from. */
  function PredictGesture(s: TFLiteState, inference: Inference): (r: (TFLiteState, Option<PredictionResult>))
    ensures !(s.isModelLoaded && s.hasModel) ==> r == (s, None)
    ensures s.isProcessing ==> r == (s, None)
    ensures r.0 == s
    ensures r.1.Some? <==> s.isModelLoaded && s.hasModel && !s.isProcessing && inference.Scores?
    ensures r.1.Some? ==> r.1.value == PostProcess(inference.data, s.labels)
  {
    var (s1, entry) := BeginPredict(s);
    match entry
    case Returned(result) => (s1, result)
    case Awaiting => FinishPredict(s1, inference)
  }

  /** A second call that arrives while the first is suspended at an `await`
      returns null and leaves the state alone; the first then completes. */
  lemma OverlappingCallRejected(s: TFLiteState, first: Inference, second: Inference)
    requires BeginPredict(s).1.Awaiting?
    ensures PredictGesture(BeginPredict(s).0, second) == (BeginPredict(s).0, None)
    ensures !FinishPredict(BeginPredict(s).0, first).0.isProcessing
  {
  }

  /** `isReady` */
  predicate IsReady(s: TFLiteState)
    ensures IsReady(s) && !s.isProcessing <==> BeginPredict(s).1.Awaiting?
  {
    s.isModelLoaded && s.hasModel
  }

  /** `dispose`: only acts when a model is present. */
  function Dispose(s: TFLiteState): (r: TFLiteState)
    ensures !IsReady(r)
    ensures !r.hasModel
    ensures r.labels == s.labels && r.isProcessing == s.isProcessing
    ensures !s.hasModel ==> r == s
  {
    if s.hasModel then s.(hasModel := false, isModelLoaded := false) else s
  }

  /** After `dispose` every prediction is null until a model is loaded again. */
  lemma DisposedPredictsNothing(s: TFLiteState, inference: Inference)
    ensures PredictGesture(Dispose(s), inference).1 == None
  {
  }
}

=== FILE: types.dfy ===
/** The records of `types/gesture.ts`. Dates become integer millisecond
    timestamps; a landmark coordinate that is `undefined` or `NaN` is the
    explicit `Missing` component. */
module Types {
  import opened Base

  datatype Category = Alphabet | Word | Phrase | Number | Letter

  /** A catalog gesture as the application context hands it out. */
  datatype Gesture = Gesture(
    id: string,
    name: string,
    description: string,
    category: Category,
    videoUrl: Option<string>,
    createdAt: int)

  /** A classification accepted by the camera's decision gate. */
  datatype TranslationResult = TranslationResult(
    id: string,
    gesture: Gesture,
    confidenceScore: real,
    timestamp: int,
    sessionId: string)

  datatype UserProgress = UserProgress(
    id: string,
    gestureId: string,
    practiceCount: int,
    lastPracticedAt: int,
    masteryLevel: int)

  datatype Resolution = Low | Medium | High

  datatype AppSettings = AppSettings(
    speechEnabled: bool,
    speechRate: real,
    confidenceThreshold: real,
    cameraResolution: Resolution)

  /** One coordinate of a landmark point as it arrives from the tracker. */
  datatype Component = Value(v: real) | Missing

  /** A landmark point: normally three components (x, y, z), but nothing
      forces the array to have exactly three. */
  type Point = seq<Component>

  datatype LandmarkData = LandmarkData(
    face: seq<Point>,
    pose: seq<Point>,
    leftHand: seq<Point>,
    rightHand: seq<Point>)

  /** A buffered frame: the sample, when it arrived, and its feature vector. */
  datatype FrameFeatures = FrameFeatures(
    landmarks: LandmarkData,
    timestamp: int,
    vector: seq<real>)
}
